=== FILE: README.md ===
# tdd-todo in Dafny

A model of the `tdd-todo` todo manager. It covers the backend and the list logic of its two browser clients:

- **Entity** (`todo.dfy`, module `TodoModel`). A six-field `Todo` record, with `createTodo`, `updateTodo` (a partial update where an absent field differs from one provided as empty) and `toggleTodoCompletion`. The source reads the clock and generates a UUID. Here both are parameters (`now`, `freshId`), so every operation is a total, deterministic function.
- **Title test** (`text.dfy`, module `Text`). `String.prototype.trim` over the ECMAScript white-space and line-terminator characters, and the guard `!s || s.trim() === ''`.
- **Store** (`storage.dfy`, module `Storage`). The JSON data file is a value: `None` when the file is missing or unreadable, otherwise the array of records. Each of `getAllTodos`, `getTodoById`, `saveTodo` and `deleteTodo` reads the whole file. The two reads never write. `saveTodo` always writes the whole list back. `deleteTodo` writes only when it removed something. In between they apply pure operations to a `seq<Todo>`: first match by id, upsert, and removal of every entry with an id. Records are serialised field by field. The timestamps go through an injective text encoding that stands in for ISO-8601.
- **Route handlers** (`api.dfy`, module `Api`). Each of the six routes is a function from the data file and a request to a status code, a payload and the data file afterwards. `Handle` dispatches between them.
- **Single-page app reducers** (`simple_app.dfy`, module `SimpleApp`). `addTodo`, `toggleTodo`, `deleteTodo` and `editTodo` of `tdd/todo-app`.
- **Frontend state machine** (`client_app.dfy`, module `ClientApp`). The state is the list, the loading flag, the add form, and the edit target with its drafts. Every handler that awaits the API takes the API's outcome as an input.
- **Client/server agreement** (`sync.dfy`, module `Sync`). The client updates its list from each API answer and never reloads. Each lemma here proves that, after one action, the client's list is still the JSON image of the stored list.
- `common.dfy` (module `Common`) holds `Option`, a subsequence predicate, and the generic `Map` and `RemoveWhere` (JavaScript's `map` and `filter`).

Two behaviours of the code worth knowing:

- `deleteTodo` removes *every* entry with the id, not just one.
- `POST` and `PUT` both check the title themselves before they call `createTodo` or `updateTodo`. That makes the entity's "Title cannot be empty" error unreachable from both handlers (`Api.HandlePost`, `Api.PreChecksMatchEntityValidation`). Separately, `PUT` checks the id before the title, so an absent id answers 404 whatever the body.

## Model

| member | source | states |
|---|---|---|
| `Text.Trim` | tdd-todo/packages/backend/src/models/Todo.ts:13 | `trim()` returns a contiguous slice of its input with no white space at either end, and everything it cuts off before and after is white space |
| `Text.BlankIffAllWhitespace` | tdd-todo/packages/backend/src/models/Todo.ts:13-15 | the guard `!title \|\| title.trim() === ''` holds exactly when every character is white space (the empty string included) |
| `Text.IsBlank` | tdd-todo/packages/backend/src/models/Todo.ts:13 | the guard `!s \|\| s.trim() === ''`; what it accepts is stated by `Text.BlankIffAllWhitespace` |
| `TodoModel.CreateTodo` | tdd-todo/packages/backend/src/models/Todo.ts:12-27 | fails exactly on a blank title, whatever the description; otherwise the title and description are kept verbatim (an empty description too), `completed` is false, and both timestamps equal the same instant |
| `TodoModel.UpdateTodo` | tdd-todo/packages/backend/src/models/Todo.ts:34-45 | fails exactly when a title is provided and blank; otherwise provided fields overwrite (a description of `""` included), absent ones are kept, id, `createdAt` and `completed` are unchanged and `updatedAt` is restamped |
| `TodoModel.ToggleTodoCompletion` | tdd-todo/packages/backend/src/models/Todo.ts:47-53 | flips `completed`, restamps `updatedAt`, never changes id, title, description or `createdAt` |
| `TodoModel.AbsentTitleNeverFails` | tdd-todo/packages/backend/src/models/Todo.ts:35-37 | an update with no title never fails |
| `TodoModel.ToggleTwiceRestores` | tdd-todo/packages/backend/src/models/Todo.test.ts:92-98 | two toggles give back the original todo except for `updatedAt` |
| `TodoModel.ToggleUpdatedAtMonotone` | tdd-todo/packages/backend/src/models/Todo.ts:47-53 | with a clock that does not go back, `updatedAt` does not decrease across toggles |
| `TodoModel.OperationsPreserveValid` | tdd-todo/packages/backend/src/models/Todo.ts:34-53 | update and toggle keep the title non-blank and `createdAt <= updatedAt` when the clock has not gone back |
| `TodoModel.HistoryKeepsInvariant` | tdd-todo/packages/backend/src/models/Todo.ts:12-53 | any sequence of updates and toggles under a non-decreasing clock keeps the title non-blank and keeps id and `createdAt`, and `updatedAt` never goes back |
| `Storage.EncodeTimestamp` | tdd-todo/packages/backend/src/storage/TodoStorage.ts:70-71 | an instant is written as a non-empty string of decimal digits |
| `Storage.DecodeTimestamp` | tdd-todo/packages/backend/src/storage/TodoStorage.ts:81-82 | a text reads back as an instant exactly when it is a non-empty string of decimal digits |
| `Storage.EncodeTimestampInjective` | tdd-todo/packages/backend/src/storage/TodoStorage.ts:70-71 | distinct instants are written as distinct texts |
| `Storage.TimestampRoundTrip` | tdd-todo/packages/backend/src/storage/TodoStorage.ts:81-82 | reading back a written instant gives the instant |
| `Storage.SerializeTodo` | tdd-todo/packages/backend/src/storage/TodoStorage.ts:64-73 | id, title, description and completed are copied verbatim; each timestamp text reads back as the timestamp |
| `Storage.DeserializeTodo` | tdd-todo/packages/backend/src/storage/TodoStorage.ts:75-84 | the four plain fields are copied verbatim; a record reads back exactly when both timestamp texts do, and its timestamps are the instants those texts denote |
| `Storage.SerializeRoundTrip` | tdd-todo/packages/backend/src/storage/TodoStorage.ts:64-84 | `deserializeTodo(serializeTodo(t))` is `t` |
| `Storage.SerializeAll` | tdd-todo/packages/backend/src/storage/TodoStorage.ts:60 | `todos.map(serializeTodo)`: one record per todo, in order, each the serialisation of the todo at the same index |
| `Storage.WriteTodos` | tdd-todo/packages/backend/src/storage/TodoStorage.ts:59-62 | the file afterwards is present and holds one record per todo |
| `Storage.DeserializeAll` | tdd-todo/packages/backend/src/storage/TodoStorage.ts:20 | the array reads back exactly when every record does, element by element, in order |
| `Storage.SerializeAllRoundTrip` | tdd-todo/packages/backend/src/storage/TodoStorage.ts:59-62 | a written list reads back as the same list |
| `Storage.GetAllTodos` | tdd-todo/packages/backend/src/storage/TodoStorage.ts:16-25 | a missing or unreadable file reads as the empty list, and a non-empty read has one todo per record |
| `Storage.ReadAfterWrite` | tdd-todo/packages/backend/src/storage/TodoStorage.ts:16-25 | `getAllTodos` after `writeTodos(ts)` returns `ts` |
| `Storage.IndexOfId` | tdd-todo/packages/backend/src/storage/TodoStorage.ts:35 | `findIndex` returns the first index with the id, or -1 exactly when no entry has it |
| `Storage.FindById` | tdd-todo/packages/backend/src/storage/TodoStorage.ts:29-30 | `find` returns the entry at the first index with the id, or null exactly when none has it |
| `Storage.FindAgreesWithIndex` | tdd-todo/packages/backend/src/storage/TodoStorage.ts:27-38 | the entry `find` returns sits at the index `findIndex` returns |
| `Storage.Upsert` | tdd-todo/packages/backend/src/storage/TodoStorage.ts:35-41 | a present id: same length, the first entry with that id replaced, every other entry unchanged in place; a new id: appended at the end |
| `Storage.RemoveId` | tdd-todo/packages/backend/src/storage/TodoStorage.ts:49 | every entry with the id is dropped; every other entry is kept in order and as many times as it occurred; the length is unchanged exactly when no entry had the id |
| `Storage.GetTodoById` | tdd-todo/packages/backend/src/storage/TodoStorage.ts:27-31 | null exactly when no stored entry has the id; otherwise the stored entry at the first index with that id |
| `Storage.SaveTodo` | tdd-todo/packages/backend/src/storage/TodoStorage.ts:33-44 | the file read afterwards is the upsert of the file read before |
| `Storage.DeleteTodo` | tdd-todo/packages/backend/src/storage/TodoStorage.ts:46-57 | returns true exactly when an entry had the id; false leaves the file untouched (no write); true leaves the filtered list |
| `Storage.SaveThenGet` | tdd-todo/packages/backend/src/storage/TodoStorage.test.ts:112-123 | after `saveTodo(t)`, `getTodoById(t.id)` returns `t` |
| `Storage.SavePreservesUniqueIds` | tdd-todo/packages/backend/src/storage/TodoStorage.ts:33-44 | if ids are unique before a save, they are unique after it |
| `Storage.SaveLength` | tdd-todo/packages/backend/src/storage/TodoStorage.ts:37-41 | a save grows the list by one for a new id and keeps its length for a present one |
| `Storage.DeleteThenGet` | tdd-todo/packages/backend/src/storage/TodoStorage.test.ts:143-154 | after a delete the id is no longer found, and unique ids stay unique |
| `Storage.SaveOverUnreadableFile` | tdd-todo/packages/backend/src/storage/TodoStorage.ts:16-44 | saving over a file that reads as empty, such as a missing or unparsable one, leaves only the saved todo |
| `Common.RemoveWhere` | tdd-todo/packages/backend/src/storage/TodoStorage.ts:49 | `filter` keeps exactly the elements the predicate accepts, in order and each as many times as it occurred, and keeps the length only when it drops nothing |
| `Api.HandleList` | tdd-todo/packages/backend/src/api/todos.ts:13-21 | `GET /` answers 200 with the whole stored list and writes nothing |
| `Api.HandleGet` | tdd-todo/packages/backend/src/api/todos.ts:24-38 | `GET /:id` answers 404 exactly when the id is absent, otherwise 200 with the first entry with that id; nothing is written |
| `Api.HandlePost` | tdd-todo/packages/backend/src/api/todos.ts:41-62 | 400 with no write exactly when the title is missing or blank; otherwise 201 with an uncompleted todo (description defaulting to `""`), which is upserted; the catch branch's "Title cannot be empty" never occurs |
| `Api.HandlePut` | tdd-todo/packages/backend/src/api/todos.ts:65-93 | 404 exactly when the id is absent, whatever the body; 400 exactly when it is present and a provided title is blank; neither writes, and they answer "Todo not found" and "Title cannot be empty"; otherwise 200 and only the first entry with the id is replaced, by its update |
| `Api.HandleToggle` | tdd-todo/packages/backend/src/api/todos.ts:96-113 | 404 with no write exactly when the id is absent; otherwise 200 and only the first entry with the id is replaced, by its toggle |
| `Api.HandleDelete` | tdd-todo/packages/backend/src/api/todos.ts:116-130 | 404 with no write exactly when the id is absent; otherwise 204 with no body, and every entry with the id is removed |
| `Api.Handle` | tdd-todo/packages/backend/src/api/todos.ts:13-130 | only 200, 201, 204, 400 and 404 occur; an error status never writes; the two GET routes never write |
| `Api.PreChecksMatchEntityValidation` | tdd-todo/packages/backend/src/api/todos.ts:45-92 | the handlers' title checks reject exactly what `createTodo`/`updateTodo` reject, so their string-matching catch branches are dead |
| `Api.ToggleAt` | tdd-todo/packages/backend/src/api/todos.ts:96-113 | a toggle of a stored id replaces its first entry in place, and that entry stays the first with the id |
| `Api.PutAt` | tdd-todo/packages/backend/src/api/todos.ts:75-85 | a PUT of a stored id with an acceptable title answers 200 and replaces its first entry in place by the update |
| `Api.ToggleTwiceRestoresStored` | tdd-todo/packages/backend/src/api/todos.test.ts:192-210 | two PATCH toggles both answer 200; the first flips `completed` and the second restores it; the stored entry ends as before except for `updatedAt` |
| `Api.DeleteThenGetIs404` | tdd-todo/packages/backend/src/api/todos.test.ts:220-234 | DELETE of a stored id answers 204 and a following GET of it answers 404 |
| `Api.HandlePreservesUniqueIds` | tdd-todo/packages/backend/src/api/todos.ts:41-130 | no request can make two stored entries share an id |
| `Api.PostFreshThenGet` | tdd-todo/packages/backend/src/api/todos.test.ts:86-99 | a valid POST with a fresh id appends exactly one entry, and GET of that id returns it |
| `Api.CreateToggleDeleteScenario` | tdd-todo/packages/backend/src/api/todos.test.ts:191-234 | POST (201, uncompleted), GET (200, same title), toggle (completed), toggle (not), DELETE (204), GET (404) |
| `SimpleApp.AddTodo` | tdd/todo-app/src/App.tsx:10-17 | one uncompleted entry with the text and the new id goes at the end; earlier entries are unchanged |
| `SimpleApp.ToggleTodo` | tdd/todo-app/src/App.tsx:19-25 | same length, ids and texts; `completed` changes exactly on the entries with the id |
| `SimpleApp.DeleteTodo` | tdd/todo-app/src/App.tsx:27-29 | exactly the entries with the id are removed; the rest are kept in order and as many times as they occurred |
| `SimpleApp.AddThenDeleteRestores` | tdd/todo-app/src/App.tsx:10-29 | deleting a just-added item by its fresh id gives back the list from before the add |
| `SimpleApp.EditTodo` | tdd/todo-app/src/App.tsx:31-37 | same length, ids and `completed`; the text becomes the new text exactly on the entries with the id |
| `SimpleApp.ToggleTwiceIsIdentity` | tdd/todo-app/src/App.tsx:19-25 | toggling the same id twice gives back the list |
| `SimpleApp.AbsentIdChangesNothing` | tdd/todo-app/src/App.tsx:19-37 | toggle, delete and edit of an id not in the list leave it unchanged |
| `SimpleApp.EditTwiceKeepsLast` | tdd/todo-app/src/App.tsx:31-37 | two edits of the same id equal the second one alone |
| `ClientApp.ReplaceById` | tdd-todo/packages/frontend/src/App.tsx:49 | same length; every entry with the id becomes the given todo, and every other entry stays in place |
| `ClientApp.RemoveById` | tdd-todo/packages/frontend/src/App.tsx:58 | exactly the entries with the id are removed; the rest are kept in order and as many times as they occurred; the length is unchanged exactly when no entry had the id |
| `ClientApp.LoadTodos` | tdd-todo/packages/frontend/src/App.tsx:19-28 | `loading` always ends false; the list is replaced only on success; nothing else changes |
| `ClientApp.AddRequest` | tdd-todo/packages/frontend/src/App.tsx:33 | no request is sent exactly when the form title is blank; otherwise both form fields are sent |
| `ClientApp.HandleAddTodo` | tdd-todo/packages/frontend/src/App.tsx:30-44 | a blank title or a failed call changes nothing; a success appends the returned todo and clears both form fields, and nothing else changes |
| `ClientApp.HandleToggleTodo` | tdd-todo/packages/frontend/src/App.tsx:46-53 | failure changes nothing; success replaces the entries with the id by the server's todo, keeps the length and the other entries, and changes nothing else |
| `ClientApp.HandleDeleteTodo` | tdd-todo/packages/frontend/src/App.tsx:55-62 | failure changes nothing; success removes the entries with the id, keeps the rest in order and as many times as they occurred, keeps the length exactly when no entry had the id, and changes nothing else |
| `ClientApp.StartEditing` | tdd-todo/packages/frontend/src/App.tsx:64-68 | the edit target becomes the todo's id and the drafts its title and description; nothing else changes |
| `ClientApp.SaveRequest` | tdd-todo/packages/frontend/src/App.tsx:72-75 | the update sends both drafts |
| `ClientApp.HandleSaveEdit` | tdd-todo/packages/frontend/src/App.tsx:70-84 | failure changes nothing and keeps the drafts; success replaces the entries with the id, resets the edit state to (null, "", ""), and leaves the form and loading flag alone |
| `ClientApp.CancelEdit` | tdd-todo/packages/frontend/src/App.tsx:86-90 | the edit state resets to (null, "", "") and nothing else, the list included, changes |
| `ClientApp.SetFormTitle` | tdd-todo/packages/frontend/src/App.tsx:101-106 | typing in the title input sets the form title to the input's text and changes nothing else |
| `ClientApp.SetFormDescription` | tdd-todo/packages/frontend/src/App.tsx:107-112 | typing in the description input sets the form description to the input's text and changes nothing else |
| `ClientApp.SetDraftTitle` | tdd-todo/packages/frontend/src/App.tsx:122-128 | the draft title input exists only in the row being edited: with an edit target it sets the draft title and nothing else, and without one nothing changes |
| `ClientApp.SetDraftDescription` | tdd-todo/packages/frontend/src/App.tsx:122-133 | the same for the draft description input |
| `ClientApp.StepPreservesInvariant` | tdd-todo/packages/frontend/src/App.tsx:7-13 | every transition, the handlers and the four input setters alike, keeps the drafts empty while no edit target is set, and never restarts loading |
| `ClientApp.ReachableStatesKeepInvariant` | tdd-todo/packages/frontend/src/App.tsx:7-13 | every state reachable from the initial one, typing included, has empty drafts when no edit target is set |
| `ClientApp.TypeThenAdd` | tdd-todo/packages/frontend/src/App.tsx:30-44 | typing a non-blank title and a successful add append the created todo and empty the title field again |
| `Sync.LoadSyncs` | tdd-todo/packages/frontend/src/App.tsx:19-28 | after loading, the client's list is the JSON image of the stored list |
| `Sync.AddSyncs` | tdd-todo/packages/frontend/src/App.tsx:30-44 | the server never refuses an add the client sends (both apply the same title test), and with a fresh id the client stays the image of the store |
| `Sync.ToggleSyncs` | tdd-todo/packages/frontend/src/App.tsx:46-53 | with unique stored ids, a toggle keeps the client the image of the store, on success and on 404 |
| `Sync.SaveEditSyncs` | tdd-todo/packages/frontend/src/App.tsx:70-84 | with unique stored ids, a saved edit keeps the client the image of the store; a 400 or 404 changes neither side and keeps the drafts |
| `Sync.DeleteSyncs` | tdd-todo/packages/frontend/src/App.tsx:55-62 | a delete keeps the client the image of the store, on success and on 404 |

## Left out

- File system access (`fs.readFile`, `fs.writeFile`) and JSON text formatting. The file is a value. A failed read, or content that does not parse as an array of records, is `None`. Write failures, and the 500 responses they would cause, are not modelled.
- ISO-8601 text. `toISOString` and `new Date(text)` are replaced by decimal digits of milliseconds, which is injective and round-trips.
- Records whose timestamp text does not parse. In the source such a record reads back with an `Invalid Date`. `GET /` and `GET /:id` still answer 200 with it. Every later save throws in `toISOString`, so POST, PUT and PATCH answer 500 and write nothing. Here such a record does not read back, and the whole read becomes the empty list. So `GET /:id`, PUT and PATCH answer 404 and write nothing. DELETE answers 404, where the source answers 204 for the bad record itself and 500 for any other stored id. POST replaces the file with a list holding only the new todo, which erases the stored records. The model's promises about a file hold for files whose records all read back, which is every file the model itself writes (`Storage.ReadAfterWrite`).
- The clock and identifier generation (`new Date()`, `randomUUID()`, `Date.now().toString()`) are parameters. Where a property needs a fresh id, it is a precondition of that lemma.
- Concurrent requests. The source has no locking, so lost updates under interleaved read-modify-write are out of scope.
- Overlapping client actions. Each frontend handler awaits the API, then builds the new list from the `todos` it captured when it was called (`tdd-todo/packages/frontend/src/App.tsx` lines 38, 49, 58 and 77). So two actions in flight at once can lose one update. `ClientApp.Step` and every lemma in `Sync` treat each action as finishing before the next one starts.
- The Express wiring: routing setup, CORS, JSON body parsing, `/health`, and the data-file lookup through `app.locals`.
- Body values that are not strings. Here a body field is either absent or a string. In the source, a falsy title (`null`, `false`, `0`) fails `!title` and answers 400 (`api/todos.ts` lines 45 and 77). A truthy non-string title makes `.trim()` throw, which answers 500. A description is never trimmed. POST replaces a falsy one with `""` (line 50), and otherwise both routes store whatever value was sent (lines 50 and 82).
- The `fetch` wrappers of `tdd-todo/packages/frontend/src/api/todos.ts`. The lemmas in `Sync` replace them with a reply-to-result conversion, where a non-2xx status is a failure. Network errors are also just a failure.
- `tdd-todo/packages/frontend/src/types/todo.ts` is not part of this model. The client's todo is taken to be the JSON record the server sends.
- Rendering: the JSX of both apps, the loading view and the presentational components. The only rendering fact the model keeps is that the draft inputs exist only in the row being edited (`ClientApp.SetDraftTitle`, `ClientApp.SetDraftDescription`).
- The Python demos (LLM and weather clients, the MCP server, `add_numbers.py`). They are network plumbing and share no logic with the todo manager.
- `Storage.GetAllTodos`: its contract only covers the missing or unreadable case and the record count. What a successful read returns is stated by `Storage.ReadAfterWrite` and `Storage.SerializeAllRoundTrip`.

=== FILE: api.dfy ===
/** The six route handlers of `api/todos.ts`, each a function from the data
    file and a request to a status code, a response payload and the data file
    afterwards. The clock reading and the fresh identifier used by `POST` are
    parameters. */
module Api {
  import opened Common
  import Text
  import opened TodoModel
  import opened Storage

  /** The body fields a handler reads; `None` is a field left out. */
  datatype Body = Body(title: Option<string>, description: Option<string>)

  datatype Request =
    | ListTodos                              // GET    /api/todos
    | GetTodo(id: string)                    // GET    /api/todos/:id
    | CreateRequest(body: Body)              // POST   /api/todos
    | UpdateRequest(id: string, body: Body)  // PUT    /api/todos/:id
    | ToggleRequest(id: string)              // PATCH  /api/todos/:id/toggle
    | DeleteRequest(id: string)              // DELETE /api/todos/:id

  datatype Payload = NoContent | One(todo: Todo) | All(todos: seq<Todo>) | Error(message: string)

  /** A handled request: status code, response payload, data file after. */
  datatype Reply = Reply(status: int, payload: Payload, file: StoreFile)

  const NotFound := "Todo not found"
  const TitleRequired := "Title is required"
  const TitleCannotBeEmptyMessage := "Title cannot be empty"

  /** The title check of `POST`: the title is missing or blank. */
  predicate MissingOrBlank(title: Option<string>) {
    title.None? || Text.IsBlank(title.value)
  }

  /** The title check of `PUT`: the title is provided and blank. */
  predicate ProvidedBlank(title: Option<string>) {
    title.Some? && Text.IsBlank(title.value)
  }

  /** GET /: 200 with the whole stored list; nothing is written. */
  function HandleList(file: StoreFile): (r: Reply)
    ensures r.status == 200 && r.file == file
    ensures r.payload.All? && r.payload.todos == GetAllTodos(file)
  {
    Reply(200, All(GetAllTodos(file)), file)
  }

  /** GET /:id: 404 exactly when no entry has the id, otherwise 200 with the
      first entry that has it; nothing is written. */
  function HandleGet(file: StoreFile, id: string): (r: Reply)
    ensures r.file == file
    ensures r.status == 404 <==> !HasId(GetAllTodos(file), id)
    ensures r.status == 404 ==> r.payload == Error(NotFound)
    ensures r.status != 404 ==>
      && r.status == 200 && r.payload.One?
      && exists k :: FirstWithId(GetAllTodos(file), id, k) && GetAllTodos(file)[k] == r.payload.todo
  {
    match GetTodoById(file, id)
    case None => Reply(404, Error(NotFound), file)
    case Some(todo) => Reply(200, One(todo), file)
  }

  /** POST /: 400 and no write when the title is missing or blank; otherwise
      201 with a new uncompleted todo (description defaulting to "") that is
      saved. The entity's own validation error cannot surface here. */
  function HandlePost(file: StoreFile, body: Body, now: Timestamp, freshId: string): (r: Reply)
    ensures r.status == 400 <==> MissingOrBlank(body.title)
    ensures r.status == 400 ==> r.file == file && r.payload == Error(TitleRequired)
    ensures r.status != 400 ==>
      && r.status == 201 && r.payload.One?
      && r.payload.todo.id == freshId
      && r.payload.todo.title == body.title.value
      && r.payload.todo.description == body.description.GetOr("")
      && !r.payload.todo.completed
      && r.payload.todo.createdAt == now == r.payload.todo.updatedAt
      && GetAllTodos(r.file) == Upsert(GetAllTodos(file), r.payload.todo)
    ensures r.payload != Error(TitleCannotBeEmptyMessage)
  {
    if MissingOrBlank(body.title) then Reply(400, Error(TitleRequired), file)
    else
      match CreateTodo(body.title.value, body.description.GetOr(""), now, freshId)
      case Err(_) => Reply(400, Error(TitleCannotBeEmptyMessage), file)
      case Ok(todo) => Reply(201, One(todo), SaveTodo(file, todo))
  }

  /** PUT /:id: 404 when the id is absent, whatever the body; then 400 when a
      title is provided blank; both without writing. Otherwise 200, and the
      first entry with the id is replaced by its update and nothing else
      changes. */
  function HandlePut(file: StoreFile, id: string, body: Body, now: Timestamp): (r: Reply)
    ensures r.status == 404 <==> !HasId(GetAllTodos(file), id)
    ensures r.status == 400 <==> HasId(GetAllTodos(file), id) && ProvidedBlank(body.title)
    ensures r.status in {400, 404} ==> r.file == file && r.payload.Error?
    ensures r.status == 404 ==> r.payload == Error(NotFound)
    ensures r.status == 400 ==> r.payload == Error(TitleCannotBeEmptyMessage)
    ensures r.status !in {400, 404} ==>
      && r.status == 200 && r.payload.One?
      && (exists k :: FirstWithId(GetAllTodos(file), id, k)
            && UpdateTodo(GetAllTodos(file)[k], TodoUpdate(body.title, body.description), now) == Ok(r.payload.todo)
            && GetAllTodos(r.file) == GetAllTodos(file)[k := r.payload.todo])
  {
    match GetTodoById(file, id)
    case None => Reply(404, Error(NotFound), file)
    case Some(existing) =>
      if ProvidedBlank(body.title) then Reply(400, Error(TitleCannotBeEmptyMessage), file)
      else
        match UpdateTodo(existing, TodoUpdate(body.title, body.description), now)
        case Err(_) => Reply(400, Error(TitleCannotBeEmptyMessage), file)
        case Ok(updated) =>
          UpsertSameId(GetAllTodos(file), existing, updated);
          Reply(200, One(updated), SaveTodo(file, updated))
  }

  /** PATCH /:id/toggle: 404 and no write when the id is absent; otherwise
      200, and the first entry with the id is replaced by its toggle. */
  function HandleToggle(file: StoreFile, id: string, now: Timestamp): (r: Reply)
    ensures r.status == 404 <==> !HasId(GetAllTodos(file), id)
    ensures r.status == 404 ==> r.file == file && r.payload == Error(NotFound)
    ensures r.status != 404 ==>
      && r.status == 200 && r.payload.One?
      && (exists k :: FirstWithId(GetAllTodos(file), id, k)
            && r.payload.todo == ToggleTodoCompletion(GetAllTodos(file)[k], now)
            && GetAllTodos(r.file) == GetAllTodos(file)[k := r.payload.todo])
  {
    match GetTodoById(file, id)
    case None => Reply(404, Error(NotFound), file)
    case Some(existing) =>
      var toggled := ToggleTodoCompletion(existing, now);
      UpsertSameId(GetAllTodos(file), existing, toggled);
      Reply(200, One(toggled), SaveTodo(file, toggled))
  }

  /** DELETE /:id: 404 and no write when the id is absent; otherwise 204 with
      no body, and every entry with the id is gone. */
  function HandleDelete(file: StoreFile, id: string): (r: Reply)
    ensures r.status == 404 <==> !HasId(GetAllTodos(file), id)
    ensures r.status == 404 ==> r.file == file && r.payload == Error(NotFound)
    ensures r.status != 404 ==>
      && r.status == 204 && r.payload == NoContent
      && GetAllTodos(r.file) == RemoveId(GetAllTodos(file), id)
  {
    var d := DeleteTodo(file, id);
    if !d.removed then Reply(404, Error(NotFound), file)
    else Reply(204, NoContent, d.file)
  }

  /** The router: one request, one reply. Only the five statuses the handlers
      name can occur, and a reply with an error status never writes. */
  function Handle(file: StoreFile, req: Request, now: Timestamp, freshId: string): (r: Reply)
    ensures r.status in {200, 201, 204, 400, 404}
    ensures r.status >= 400 ==> r.file == file && r.payload.Error?
    ensures req.ListTodos? || req.GetTodo? ==> r.file == file
  {
    match req
    case ListTodos => HandleList(file)
    case GetTodo(id) => HandleGet(file, id)
    case CreateRequest(body) => HandlePost(file, body, now, freshId)
    case UpdateRequest(id, body) => HandlePut(file, id, body, now)
    case ToggleRequest(id) => HandleToggle(file, id, now)
    case DeleteRequest(id) => HandleDelete(file, id)
  }

  /** Upserting a replacement for the first entry with an id overwrites that
      entry in place. */
  lemma UpsertSameId(todos: seq<Todo>, existing: Todo, replacement: Todo)
    requires exists k :: FirstWithId(todos, existing.id, k) && todos[k] == existing
    requires replacement.id == existing.id
    ensures exists k :: (FirstWithId(todos, existing.id, k)
      && Upsert(todos, replacement) == todos[k := replacement])
  {
    var k :| FirstWithId(todos, existing.id, k) && todos[k] == existing;
    var r := Upsert(todos, replacement);
    var k' :| FirstWithId(todos, replacement.id, k') && r[k'] == replacement
       && forall j :: 0 <= j < |r| && j != k' ==> r[j] == todos[j];
    assert k == k' by { FirstIndexUnique(todos, existing.id, k, k'); }
    assert r == todos[k := replacement];
  }

  lemma FirstIndexUnique(todos: seq<Todo>, id: string, k: int, k': int)
    requires FirstWithId(todos, id, k) && FirstWithId(todos, id, k')
    ensures k == k'
  {
  }

  // ---------------------------------------------------------------------
  // Properties of the handlers
  // ---------------------------------------------------------------------

  /** The handlers' title checks agree with the entity's: whenever a check
      lets a request through, `createTodo` / `updateTodo` succeed, so the
      catch branches matching 'Title cannot be empty' are dead code. */
  lemma PreChecksMatchEntityValidation(existing: Todo, body: Body, now: Timestamp, freshId: string)
    ensures body.title.Some? ==>
      (CreateTodo(body.title.value, body.description.GetOr(""), now, freshId).Err? <==> MissingOrBlank(body.title))
    ensures UpdateTodo(existing, TodoUpdate(body.title, body.description), now).Err? <==> ProvidedBlank(body.title)
  {
  }

  /** Replacing an entry by one with the same id keeps its index the first
      with that id. */
  lemma FirstWithIdAfterReplace(todos: seq<Todo>, id: string, k: int, t: Todo)
    requires FirstWithId(todos, id, k) && t.id == id
    ensures FirstWithId(todos[k := t], id, k)
  {
  }

  /** A PATCH on an id whose first entry sits at `k` toggles that entry in
      place, where it stays the first with the id. */
  lemma ToggleAt(file: StoreFile, id: string, k: int, now: Timestamp)
    requires FirstWithId(GetAllTodos(file), id, k)
    ensures
      var r := HandleToggle(file, id, now);
      && r.status == 200
      && r.payload == One(ToggleTodoCompletion(GetAllTodos(file)[k], now))
      && GetAllTodos(r.file) == GetAllTodos(file)[k := r.payload.todo]
      && FirstWithId(GetAllTodos(r.file), id, k)
  {
    var todos := GetAllTodos(file);
    var r := HandleToggle(file, id, now);
    var k' :| FirstWithId(todos, id, k')
      && r.payload.todo == ToggleTodoCompletion(todos[k'], now)
      && GetAllTodos(r.file) == todos[k' := r.payload.todo];
    FirstIndexUnique(todos, id, k, k');
    FirstWithIdAfterReplace(todos, id, k, r.payload.todo);
  }

  /** A PUT on an id whose first entry sits at `k`, with a title that is not
      provided blank, replaces that entry in place by its update. */
  lemma PutAt(file: StoreFile, id: string, k: int, body: Body, now: Timestamp)
    requires FirstWithId(GetAllTodos(file), id, k) && !ProvidedBlank(body.title)
    ensures
      var r := HandlePut(file, id, body, now);
      var u := UpdateTodo(GetAllTodos(file)[k], TodoUpdate(body.title, body.description), now);
      && u.Ok? && r.status == 200 && r.payload == One(u.value)
      && GetAllTodos(r.file) == GetAllTodos(file)[k := u.value]
  {
    var todos := GetAllTodos(file);
    var r := HandlePut(file, id, body, now);
    var k' :| FirstWithId(todos, id, k')
      && UpdateTodo(todos[k'], TodoUpdate(body.title, body.description), now) == Ok(r.payload.todo)
      && GetAllTodos(r.file) == todos[k' := r.payload.todo];
    FirstIndexUnique(todos, id, k, k');
  }

  /** Two PATCH toggles on a stored id both answer 200 and put the stored
      entry back as it was, except for `updatedAt`. */
  lemma ToggleTwiceRestoresStored(file: StoreFile, id: string, now1: Timestamp, now2: Timestamp)
    requires HasId(GetAllTodos(file), id)
    ensures
      var first := HandleToggle(file, id, now1);
      var second := HandleToggle(first.file, id, now2);
      && first.status == 200 && second.status == 200
      && first.payload.todo.completed != GetTodoById(file, id).value.completed
      && second.payload.todo.completed == GetTodoById(file, id).value.completed
      && HasId(GetAllTodos(second.file), id)
      && exists k :: (FirstWithId(GetAllTodos(file), id, k)
         && GetAllTodos(second.file) == GetAllTodos(file)[k := GetAllTodos(file)[k].(updatedAt := now2)])
  {
    var todos := GetAllTodos(file);
    var k := IndexOfId(todos, id);
    ToggleAt(file, id, k, now1);
    var first := HandleToggle(file, id, now1);
    ToggleAt(first.file, id, k, now2);
    var second := HandleToggle(first.file, id, now2);
    ToggleTwiceRestores(todos[k], now1, now2);
    assert GetAllTodos(second.file) == todos[k := todos[k].(updatedAt := now2)];
    FindAgreesWithIndex(todos, id);
    assert GetTodoById(file, id) == Some(todos[k]);
  }

  /** After DELETE answers 204, GET of the same id answers 404. */
  lemma DeleteThenGetIs404(file: StoreFile, id: string)
    requires HasId(GetAllTodos(file), id)
    ensures HandleDelete(file, id).status == 204
    ensures HandleGet(HandleDelete(file, id).file, id).status == 404
  {
    DeleteThenGet(file, id);
  }

  /** No request can make two stored entries share an id, not even a POST
      whose fresh id collides (it replaces instead of appending). */
  lemma HandlePreservesUniqueIds(file: StoreFile, req: Request, now: Timestamp, freshId: string)
    requires UniqueIds(GetAllTodos(file))
    ensures UniqueIds(GetAllTodos(Handle(file, req, now, freshId).file))
  {
    var r := Handle(file, req, now, freshId);
    if r.status < 400 {
      match req
      case CreateRequest(body) =>
        SavePreservesUniqueIds(file, r.payload.todo);
      case UpdateRequest(id, body) =>
        var todos := GetAllTodos(file);
        var k :| FirstWithId(todos, id, k)
          && UpdateTodo(todos[k], TodoUpdate(body.title, body.description), now) == Ok(r.payload.todo)
          && GetAllTodos(r.file) == todos[k := r.payload.todo];
        ReplaceKeepsUnique(todos, k, r.payload.todo);
      case ToggleRequest(id) =>
        var todos := GetAllTodos(file);
        var k :| FirstWithId(todos, id, k)
          && r.payload.todo == ToggleTodoCompletion(todos[k], now)
          && GetAllTodos(r.file) == todos[k := r.payload.todo];
        ReplaceKeepsUnique(todos, k, r.payload.todo);
      case DeleteRequest(id) =>
        DeleteThenGet(file, id);
      case _ =>
    }
  }

  /** Replacing an entry by one with the same id keeps ids unique. */
  lemma ReplaceKeepsUnique(todos: seq<Todo>, k: int, t: Todo)
    requires UniqueIds(todos) && 0 <= k < |todos| && t.id == todos[k].id
    ensures UniqueIds(todos[k := t])
  {
    var r := todos[k := t];
    forall i, j | 0 <= i < j < |r| ensures r[i].id != r[j].id {
      assert r[i].id == todos[i].id && r[j].id == todos[j].id;
    }
  }

  /** A POST with a fresh id and a non-blank title stores the new todo
      last, and a GET of that id then returns it. */
  lemma PostFreshThenGet(file: StoreFile, body: Body, now: Timestamp, freshId: string)
    requires !HasId(GetAllTodos(file), freshId) && !MissingOrBlank(body.title)
    ensures
      var post := HandlePost(file, body, now, freshId);
      && post.status == 201
      && GetAllTodos(post.file) == GetAllTodos(file) + [post.payload.todo]
      && HandleGet(post.file, freshId) == Reply(200, One(post.payload.todo), post.file)
  {
    var post := HandlePost(file, body, now, freshId);
    var stored := GetAllTodos(post.file);
    assert FirstWithId(stored, freshId, |stored| - 1);
    var get := HandleGet(post.file, freshId);
    var kg :| FirstWithId(stored, freshId, kg) && stored[kg] == get.payload.todo;
    FirstIndexUnique(stored, freshId, kg, |stored| - 1);
  }

  /** The request sequence the API tests walk through: POST a todo with a
      non-blank title and a fresh id (201, uncompleted), GET it (200, same
      title), toggle it twice (completed, then not), DELETE it (204), GET it
      again (404). */
  lemma CreateToggleDeleteScenario(file: StoreFile, title: string, description: string,
                                    freshId: string, now: Timestamp)
    requires !HasId(GetAllTodos(file), freshId) && !Text.IsBlank(title)
    ensures
      var post := HandlePost(file, Body(Some(title), Some(description)), now, freshId);
      var get := HandleGet(post.file, freshId);
      var on := HandleToggle(post.file, freshId, now);
      var off := HandleToggle(on.file, freshId, now);
      var del := HandleDelete(off.file, freshId);
      && post.status == 201 && post.payload.One?
      && !post.payload.todo.completed && post.payload.todo.description == description
      && get.status == 200 && get.payload.One? && get.payload.todo.title == title
      && on.status == 200 && on.payload.One? && on.payload.todo.completed
      && off.status == 200 && off.payload.One? && !off.payload.todo.completed
      && del.status == 204
      && HandleGet(del.file, freshId).status == 404
  {
    var body := Body(Some(title), Some(description));
    PostFreshThenGet(file, body, now, freshId);
    var post := HandlePost(file, body, now, freshId);
    assert GetTodoById(post.file, freshId) == Some(post.payload.todo);
    ToggleTwiceRestoresStored(post.file, freshId, now, now);
    var on := HandleToggle(post.file, freshId, now);
    var off := HandleToggle(on.file, freshId, now);
    DeleteThenGetIs404(off.file, freshId);
  }
}

=== FILE: client_app.dfy ===
/** The state transitions of the browser client
    (`tdd-todo/packages/frontend/src/App.tsx`): the list, the loading flag,
    the add-form fields and the edit target with its drafts. Each handler
    that awaits the API takes the API's answer as an input: the value it
    resolved to, or a failure (the handler's `catch`). */
module ClientApp {
  import opened Common
  import Text
  import Storage

  /** A todo as the client receives it: the JSON the server sends. */
  type Todo = Storage.TodoJson

  /** What an awaited API call produced. */
  datatype ApiResult<+T> = Success(value: T) | Failure

  datatype State = State(
    todos: seq<Todo>,
    loading: bool,
    title: string,
    description: string,
    editingId: Option<string>,
    editTitle: string,
    editDescription: string)

  /** The component's initial state, before `loadTodos` has finished. */
  const Initial: State := State([], true, "", "", None, "", "")

  /** `CreateTodoDto` and `UpdateTodoDto`: the request bodies sent. */
  datatype CreateDto = CreateDto(title: string, description: string)
  datatype UpdateDto = UpdateDto(title: string, description: string)

  /** `todos.map(todo => todo.id === id ? updated : todo)`. */
  function ReplaceById(todos: seq<Todo>, id: string, updated: Todo): (r: seq<Todo>)
    ensures |r| == |todos|
    ensures forall i :: 0 <= i < |todos| && todos[i].id == id ==> r[i] == updated
    ensures forall i :: 0 <= i < |todos| && todos[i].id != id ==> r[i] == todos[i]
  {
    Map(todos, (t: Todo) => if t.id == id then updated else t)
  }

  /** `todos.filter(todo => todo.id !== id)`. */
  function RemoveById(todos: seq<Todo>, id: string): (r: seq<Todo>)
    ensures IsSubsequence(r, todos)
    ensures forall i :: 0 <= i < |r| ==> r[i].id != id
    ensures forall i :: 0 <= i < |todos| && todos[i].id != id ==> todos[i] in r
    ensures forall i {:trigger multiset(r)[todos[i]]} :: 0 <= i < |todos| && todos[i].id != id ==>
      multiset(r)[todos[i]] == multiset(todos)[todos[i]]
    ensures |r| == |todos| <==> forall i :: 0 <= i < |todos| ==> todos[i].id != id
  {
    RemoveWhere(todos, (t: Todo) => t.id == id)
  }

  /** `loadTodos`: the list is replaced only when the fetch succeeds, and
      `loading` ends false either way; nothing else changes. */
  function LoadTodos(s: State, fetched: ApiResult<seq<Todo>>): (r: State)
    ensures !r.loading
    ensures fetched.Success? ==> r.todos == fetched.value
    ensures fetched.Failure? ==> r.todos == s.todos
    ensures r.(todos := s.todos, loading := s.loading) == s
  {
    var todos := if fetched.Success? then fetched.value else s.todos;
    s.(todos := todos, loading := false)
  }

  /** The request `handleAddTodo` sends: none when the title is blank. */
  function AddRequest(s: State): (dto: Option<CreateDto>)
    ensures dto.None? <==> Text.IsBlank(s.title)
    ensures dto.Some? ==> dto.value.title == s.title && dto.value.description == s.description
  {
    if Text.IsBlank(s.title) then None else Some(CreateDto(s.title, s.description))
  }

  /** `handleAddTodo`: with a blank title nothing happens; on success the
      returned todo is appended and the form cleared; on failure nothing
      changes. */
  function HandleAddTodo(s: State, created: ApiResult<Todo>): (r: State)
    ensures Text.IsBlank(s.title) || created.Failure? ==> r == s
    ensures !Text.IsBlank(s.title) && created.Success? ==>
      && r.todos == s.todos + [created.value]
      && r.title == "" && r.description == ""
      && r.(todos := s.todos, title := s.title, description := s.description) == s
  {
    if AddRequest(s).None? then s
    else match created
      case Success(todo) => s.(todos := s.todos + [todo], title := "", description := "")
      case Failure => s
  }

  /** `handleToggleTodo`: on success the entries with the id become the
      server's answer, all else kept; on failure nothing changes. */
  function HandleToggleTodo(s: State, id: string, toggled: ApiResult<Todo>): (r: State)
    ensures toggled.Failure? ==> r == s
    ensures toggled.Success? ==>
      && |r.todos| == |s.todos|
      && (forall i :: 0 <= i < |s.todos| ==>
            r.todos[i] == if s.todos[i].id == id then toggled.value else s.todos[i])
      && r.(todos := s.todos) == s
  {
    match toggled
    case Success(todo) => s.(todos := ReplaceById(s.todos, id, todo))
    case Failure => s
  }

  /** `handleDeleteTodo`: on success the entries with the id are removed and
      the rest kept in order; on failure nothing changes. */
  function HandleDeleteTodo(s: State, id: string, deleted: ApiResult<()>): (r: State)
    ensures deleted.Failure? ==> r == s
    ensures deleted.Success? ==>
      && IsSubsequence(r.todos, s.todos)
      && (forall i :: 0 <= i < |r.todos| ==> r.todos[i].id != id)
      && (forall i :: 0 <= i < |s.todos| && s.todos[i].id != id ==> s.todos[i] in r.todos)
      && (forall i {:trigger multiset(r.todos)[s.todos[i]]} :: 0 <= i < |s.todos| && s.todos[i].id != id ==>
            multiset(r.todos)[s.todos[i]] == multiset(s.todos)[s.todos[i]])
      && (|r.todos| == |s.todos| <==> forall i :: 0 <= i < |s.todos| ==> s.todos[i].id != id)
      && r.(todos := s.todos) == s
  {
    match deleted
    case Success(_) => s.(todos := RemoveById(s.todos, id))
    case Failure => s
  }

  /** `startEditing`: the target becomes the todo's id and the drafts its
      title and description; nothing else changes. */
  function StartEditing(s: State, todo: Todo): (r: State)
    ensures r.editingId == Some(todo.id)
    ensures r.editTitle == todo.title && r.editDescription == todo.description
    ensures r.(editingId := s.editingId, editTitle := s.editTitle, editDescription := s.editDescription) == s
  {
    s.(editingId := Some(todo.id), editTitle := todo.title, editDescription := todo.description)
  }

  /** The request `handleSaveEdit` sends: both drafts, always. */
  function SaveRequest(s: State): (dto: UpdateDto)
    ensures dto.title == s.editTitle && dto.description == s.editDescription
  {
    UpdateDto(s.editTitle, s.editDescription)
  }

  /** The edit target and drafts are cleared. */
  predicate EditCleared(s: State) {
    s.editingId == None && s.editTitle == "" && s.editDescription == ""
  }

  /** `handleSaveEdit`: on success the entries with the id become the
      server's answer and the edit state is cleared; on failure nothing
      changes, so the drafts stay for another attempt. */
  function HandleSaveEdit(s: State, id: string, updated: ApiResult<Todo>): (r: State)
    ensures updated.Failure? ==> r == s
    ensures updated.Success? ==>
      && EditCleared(r)
      && |r.todos| == |s.todos|
      && (forall i :: 0 <= i < |s.todos| ==>
            r.todos[i] == if s.todos[i].id == id then updated.value else s.todos[i])
      && r.loading == s.loading && r.title == s.title && r.description == s.description
  {
    match updated
    case Success(todo) =>
      s.(todos := ReplaceById(s.todos, id, todo), editingId := None, editTitle := "", editDescription := "")
    case Failure => s
  }

  /** `cancelEdit`: the edit state is cleared and nothing else changes. */
  function CancelEdit(s: State): (r: State)
    ensures EditCleared(r)
    ensures r.(editingId := s.editingId, editTitle := s.editTitle, editDescription := s.editDescription) == s
  {
    s.(editingId := None, editTitle := "", editDescription := "")
  }

  /** The add form's `onChange` setters: `setTitle` and `setDescription`
      replace one field with what the input now holds; nothing else changes. */
  function SetFormTitle(s: State, text: string): (r: State)
    ensures r.title == text && r.(title := s.title) == s
  {
    s.(title := text)
  }

  function SetFormDescription(s: State, text: string): (r: State)
    ensures r.description == text && r.(description := s.description) == s
  {
    s.(description := text)
  }

  /** The edit row's `onChange` setters. Their inputs are rendered only in
      the row whose id is the edit target, so with no target they cannot
      fire and the state is unchanged. */
  function SetDraftTitle(s: State, text: string): (r: State)
    ensures s.editingId.Some? ==> r.editTitle == text && r.(editTitle := s.editTitle) == s
    ensures s.editingId.None? ==> r == s
  {
    if s.editingId.Some? then s.(editTitle := text) else s
  }

  function SetDraftDescription(s: State, text: string): (r: State)
    ensures s.editingId.Some? ==> r.editDescription == text && r.(editDescription := s.editDescription) == s
    ensures s.editingId.None? ==> r == s
  {
    if s.editingId.Some? then s.(editDescription := text) else s
  }

  /** Every transition the component makes: its handlers and its input
      setters. */
  datatype Event =
    | FormTitleTyped(text: string)
    | FormDescriptionTyped(text: string)
    | DraftTitleTyped(text: string)
    | DraftDescriptionTyped(text: string)
    | Loaded(fetched: ApiResult<seq<Todo>>)
    | Added(created: ApiResult<Todo>)
    | Toggled(id: string, toggled: ApiResult<Todo>)
    | Removed(id: string, deleted: ApiResult<()>)
    | EditStarted(todo: Todo)
    | EditSaved(id: string, updated: ApiResult<Todo>)
    | EditCancelled

  function Step(s: State, e: Event): State {
    match e
    case FormTitleTyped(text) => SetFormTitle(s, text)
    case FormDescriptionTyped(text) => SetFormDescription(s, text)
    case DraftTitleTyped(text) => SetDraftTitle(s, text)
    case DraftDescriptionTyped(text) => SetDraftDescription(s, text)
    case Loaded(fetched) => LoadTodos(s, fetched)
    case Added(created) => HandleAddTodo(s, created)
    case Toggled(id, toggled) => HandleToggleTodo(s, id, toggled)
    case Removed(id, deleted) => HandleDeleteTodo(s, id, deleted)
    case EditStarted(todo) => StartEditing(s, todo)
    case EditSaved(id, updated) => HandleSaveEdit(s, id, updated)
    case EditCancelled => CancelEdit(s)
  }

  /** The state invariant: with no edit target the drafts are empty. */
  predicate DraftsIdle(s: State) {
    s.editingId.None? ==> s.editTitle == "" && s.editDescription == ""
  }

  /** Every transition keeps the drafts empty while nothing is being edited,
      and once loading has finished it never restarts. */
  lemma StepPreservesInvariant(s: State, e: Event)
    requires DraftsIdle(s)
    ensures DraftsIdle(Step(s, e))
    ensures !s.loading ==> !Step(s, e).loading
  {
  }

  /** The invariant holds along any run from the initial state. */
  lemma {:induction false} RunPreservesInvariant(s: State, events: seq<Event>)
    requires DraftsIdle(s)
    ensures DraftsIdle(Run(s, events))
    decreases |events|
  {
    if events != [] {
      StepPreservesInvariant(s, events[0]);
      RunPreservesInvariant(Step(s, events[0]), events[1..]);
    }
  }

  function Run(s: State, events: seq<Event>): State
    decreases |events|
  {
    if events == [] then s else Run(Step(s, events[0]), events[1..])
  }

  /** The initial state satisfies the invariant, so every reachable state
      does. */
  lemma ReachableStatesKeepInvariant(events: seq<Event>)
    ensures DraftsIdle(Run(Initial, events))
  {
    RunPreservesInvariant(Initial, events);
  }

  /** Typing a non-blank title and having the add succeed appends the
      created todo and empties the form again. */
  lemma TypeThenAdd(s: State, text: string, created: Todo)
    requires !Text.IsBlank(text)
    ensures Run(s, [FormTitleTyped(text), Added(Success(created))]).todos == s.todos + [created]
    ensures Run(s, [FormTitleTyped(text), Added(Success(created))]).title == ""
  {
    var s1 := Step(s, FormTitleTyped(text));
    var events := [FormTitleTyped(text), Added(Success(created))];
    assert events[1..] == [Added(Success(created))];
    assert [Added(Success(created))][1..] == [];
    assert Run(s, events) == Run(s1, events[1..]) == HandleAddTodo(s1, Success(created));
  }
}

=== FILE: common.dfy ===
/** Shared optional-value wrapper: models JavaScript's `undefined`/`null`
    for an absent field or a failed lookup. */
module Common {

  datatype Option<+T> = None | Some(value: T) {

    /** The value if present, otherwise `default` (JavaScript's `x || default`
        and `x !== undefined ? x : default` on strings, where noted). */
    function GetOr(default: T): T {
      match this
      case Some(v) => v
      case None => default
    }
  }

  /** `a` can be obtained from `b` by deleting elements, keeping order. */
  predicate IsSubsequence<T(==)>(a: seq<T>, b: seq<T>)
    decreases |b|
  {
    && |a| <= |b|
    && (a == [] || if a[0] == b[0] then IsSubsequence(a[1..], b[1..]) else IsSubsequence(a, b[1..]))
  }

  /** A subsequence as long as the whole is the whole. */
  lemma {:induction false} SubsequenceOfSameLength<T>(a: seq<T>, b: seq<T>)
    requires IsSubsequence(a, b) && |a| == |b|
    ensures a == b
    decreases |b|
  {
    if a != [] {
      SubsequenceOfSameLength(a[1..], b[1..]);
      assert a == [a[0]] + a[1..];
      assert b == [b[0]] + b[1..];
    }
  }

  /** Every element of a subsequence is an element of the whole. */
  lemma {:induction false} SubsequenceMembers<T>(a: seq<T>, b: seq<T>)
    requires IsSubsequence(a, b)
    ensures forall i :: 0 <= i < |a| ==> exists m :: 0 <= m < |b| && b[m] == a[i]
    decreases |b|
  {
    if a != [] {
      if a[0] == b[0] {
        SubsequenceMembers(a[1..], b[1..]);
        forall i | 0 <= i < |a| ensures exists m :: 0 <= m < |b| && b[m] == a[i] {
          if i == 0 {
            assert b[0] == a[0];
          } else {
            assert a[i] == a[1..][i - 1];
            var m :| 0 <= m < |b[1..]| && b[1..][m] == a[i];
            assert b[m + 1] == a[i];
          }
        }
      } else {
        SubsequenceMembers(a, b[1..]);
        forall i | 0 <= i < |a| ensures exists m :: 0 <= m < |b| && b[m] == a[i] {
          var m :| 0 <= m < |b[1..]| && b[1..][m] == a[i];
          assert b[m + 1] == a[i];
        }
      }
    }
  }

  /** An element occurs in a subsequence at most as often as in the whole. */
  lemma {:induction false} SubsequenceCounts<T>(a: seq<T>, b: seq<T>)
    requires IsSubsequence(a, b)
    ensures multiset(a) <= multiset(b)
    decreases |b|
  {
    if a != [] {
      assert b == [b[0]] + b[1..];
      if a[0] == b[0] {
        SubsequenceCounts(a[1..], b[1..]);
        assert a == [a[0]] + a[1..];
      } else {
        SubsequenceCounts(a, b[1..]);
      }
    }
  }

  /** `xs.map(f)`. */
  function Map<A, B>(xs: seq<A>, f: A -> B): (ys: seq<B>)
    ensures |ys| == |xs|
    ensures forall i :: 0 <= i < |xs| ==> ys[i] == f(xs[i])
  {
    seq(|xs|, i requires 0 <= i < |xs| => f(xs[i]))
  }

  /** `xs.filter(x => !drop(x))`: the elements `drop` rejects are gone, every
      other element stays as often as it occurred, in its original order. */
  function RemoveWhere<T>(xs: seq<T>, drop: T -> bool): (r: seq<T>)
    ensures IsSubsequence(r, xs)
    ensures forall i :: 0 <= i < |r| ==> !drop(r[i])
    ensures forall i :: 0 <= i < |xs| && !drop(xs[i]) ==> xs[i] in r
    ensures forall i {:trigger multiset(r)[xs[i]]} :: 0 <= i < |xs| && !drop(xs[i]) ==> multiset(r)[xs[i]] == multiset(xs)[xs[i]]
    ensures |r| == |xs| <==> forall i :: 0 <= i < |xs| ==> !drop(xs[i])
    decreases |xs|
  {
    if xs == [] then []
    else
      var tail := xs[1..];
      var rest := RemoveWhere(tail, drop);
      var r := if drop(xs[0]) then rest else [xs[0]] + rest;
      assert forall i :: 1 <= i < |xs| ==> xs[i] == tail[i - 1];
      assert xs == [xs[0]] + tail;
      assert !drop(xs[0]) ==> r[1..] == rest;
      FilterStepCounts(xs, rest, r, drop);
      r
  }

  /** One step of `RemoveWhere`'s multiplicity clause: if `rest` keeps every
      accepted element of `xs[1..]` as often as it occurs, so does `r`, the
      filter of `xs` built from `rest`. */
  lemma {:induction false} FilterStepCounts<T>(xs: seq<T>, rest: seq<T>, r: seq<T>, drop: T -> bool)
    requires xs != [] && IsSubsequence(rest, xs[1..])
    requires forall i {:trigger multiset(rest)[xs[1..][i]]} :: 0 <= i < |xs[1..]| && !drop(xs[1..][i]) ==>
      multiset(rest)[xs[1..][i]] == multiset(xs[1..])[xs[1..][i]]
    requires r == if drop(xs[0]) then rest else [xs[0]] + rest
    ensures forall i {:trigger multiset(r)[xs[i]]} :: 0 <= i < |xs| && !drop(xs[i]) ==> multiset(r)[xs[i]] == multiset(xs)[xs[i]]
  {
    var tail := xs[1..];
    assert xs == [xs[0]] + tail;
    assert multiset(xs) == multiset{xs[0]} + multiset(tail);
    forall i | 0 <= i < |xs| && !drop(xs[i]) ensures multiset(r)[xs[i]] == multiset(xs)[xs[i]] {
      var x := xs[i];
      if drop(xs[0]) {
        assert x != xs[0] && x == tail[i - 1];
        assert multiset(rest)[tail[i - 1]] == multiset(tail)[tail[i - 1]];
      } else {
        assert multiset(r) == multiset{xs[0]} + multiset(rest);
        if j :| 0 <= j < |tail| && tail[j] == x {
          assert multiset(rest)[tail[j]] == multiset(tail)[tail[j]];
        } else {
          SubsequenceCounts(rest, tail);
          assert multiset(rest)[x] <= multiset(tail)[x] == 0;
        }
      }
    }
  }

  /** Filtering a list with one more element at the end filters the list,
      then keeps or drops that element. */
  lemma {:induction false} RemoveWhereAppend<T>(xs: seq<T>, y: T, drop: T -> bool)
    ensures RemoveWhere(xs + [y], drop) == RemoveWhere(xs, drop) + (if drop(y) then [] else [y])
    decreases |xs|
  {
    if xs != [] {
      assert (xs + [y])[1..] == xs[1..] + [y];
      RemoveWhereAppend(xs[1..], y, drop);
    }
  }

  /** Filtering commutes with a map that preserves the filter's verdict. */
  lemma {:induction false} RemoveWhereMap<A, B>(xs: seq<A>, f: A -> B, dropA: A -> bool, dropB: B -> bool)
    requires forall x :: dropB(f(x)) == dropA(x)
    ensures Map(RemoveWhere(xs, dropA), f) == RemoveWhere(Map(xs, f), dropB)
    decreases |xs|
  {
    if xs != [] {
      var ys := Map(xs, f);
      RemoveWhereMap(xs[1..], f, dropA, dropB);
      assert ys[1..] == Map(xs[1..], f);
      var restA := RemoveWhere(xs[1..], dropA);
      var restB := RemoveWhere(ys[1..], dropB);
      assert Map(restA, f) == restB;
      if dropA(xs[0]) {
        assert RemoveWhere(xs, dropA) == restA;
        assert RemoveWhere(ys, dropB) == restB;
      } else {
        assert RemoveWhere(xs, dropA) == [xs[0]] + restA;
        assert RemoveWhere(ys, dropB) == [ys[0]] + restB;
        assert Map([xs[0]] + restA, f) == [f(xs[0])] + Map(restA, f);
      }
    }
  }
}

=== FILE: simple_app.dfy ===
/** The list reducers of the single-page todo app (`tdd/todo-app/src/App.tsx`):
    synchronous transforms of the in-memory list. The new item's id, which
    the source takes from `Date.now().toString()`, is a parameter. */
module SimpleApp {
  import opened Common

  datatype Item = Item(id: string, text: string, completed: bool)

  predicate HasId(items: seq<Item>, id: string) {
    exists i :: 0 <= i < |items| && items[i].id == id
  }

  /** `addTodo`: one uncompleted item with the text goes at the end. */
  function AddTodo(items: seq<Item>, text: string, newId: string): (r: seq<Item>)
    ensures |r| == |items| + 1
    ensures r[..|items|] == items
    ensures r[|items|].id == newId && r[|items|].text == text && !r[|items|].completed
  {
    items + [Item(newId, text, false)]
  }

  /** `toggleTodo`: same length, ids and texts; `completed` flips exactly on
      the entries with the id. */
  function ToggleTodo(items: seq<Item>, id: string): (r: seq<Item>)
    ensures |r| == |items|
    ensures forall i :: 0 <= i < |items| ==>
      && r[i].id == items[i].id && r[i].text == items[i].text
      && (r[i].completed != items[i].completed <==> items[i].id == id)
  {
    seq(|items|, i requires 0 <= i < |items| =>
      if items[i].id == id then items[i].(completed := !items[i].completed) else items[i])
  }

  /** `deleteTodo`: drops exactly the entries with the id, keeping the rest
      in order. */
  function DeleteTodo(items: seq<Item>, id: string): (r: seq<Item>)
    ensures IsSubsequence(r, items)
    ensures forall i :: 0 <= i < |r| ==> r[i].id != id
    ensures forall i :: 0 <= i < |items| && items[i].id != id ==> items[i] in r
    ensures forall i {:trigger multiset(r)[items[i]]} :: 0 <= i < |items| && items[i].id != id ==>
      multiset(r)[items[i]] == multiset(items)[items[i]]
    ensures |r| == |items| <==> !HasId(items, id)
  {
    RemoveWhere(items, (t: Item) => t.id == id)
  }

  /** `editTodo`: same length, ids and completion flags; the text becomes
      `newText` exactly on the entries with the id. */
  function EditTodo(items: seq<Item>, id: string, newText: string): (r: seq<Item>)
    ensures |r| == |items|
    ensures forall i :: 0 <= i < |items| ==>
      && r[i].id == items[i].id && r[i].completed == items[i].completed
      && r[i].text == (if items[i].id == id then newText else items[i].text)
  {
    seq(|items|, i requires 0 <= i < |items| =>
      if items[i].id == id then items[i].(text := newText) else items[i])
  }

  /** Toggling the same id twice gives back the list. */
  lemma ToggleTwiceIsIdentity(items: seq<Item>, id: string)
    ensures ToggleTodo(ToggleTodo(items, id), id) == items
  {
    var r := ToggleTodo(ToggleTodo(items, id), id);
    forall i | 0 <= i < |items| ensures r[i] == items[i] {
    }
  }

  /** Toggle, delete and edit with an id that is not in the list change
      nothing. */
  lemma AbsentIdChangesNothing(items: seq<Item>, id: string, newText: string)
    requires !HasId(items, id)
    ensures ToggleTodo(items, id) == items
    ensures DeleteTodo(items, id) == items
    ensures EditTodo(items, id, newText) == items
  {
    SubsequenceOfSameLength(DeleteTodo(items, id), items);
  }

  /** Deleting a just-added item by its fresh id gives back the list. */
  lemma AddThenDeleteRestores(items: seq<Item>, text: string, newId: string)
    requires !HasId(items, newId)
    ensures DeleteTodo(AddTodo(items, text, newId), newId) == items
  {
    RemoveWhereAppend(items, Item(newId, text, false), (t: Item) => t.id == newId);
    AbsentIdChangesNothing(items, newId, text);
  }

  /** Editing an item twice keeps the last text: edits overwrite. */
  lemma EditTwiceKeepsLast(items: seq<Item>, id: string, text1: string, text2: string)
    ensures EditTodo(EditTodo(items, id, text1), id, text2) == EditTodo(items, id, text2)
  {
  }
}

=== FILE: storage.dfy ===
/** The flat-file store (`storage/TodoStorage.ts`) with the file system taken
    out: the file is a value, either absent/unreadable or an array of JSON
    records. Every operation reads it whole; `saveTodo` always writes it back
    whole, `deleteTodo` only when it removed something, and the two reads
    never write. */
module Storage {
  import opened Common
  import opened TodoModel

  // ---------------------------------------------------------------------
  // Timestamp text: a stand-in for `toISOString()` / `new Date(string)`.
  // An instant is written as its decimal digits, which is injective.
  // ---------------------------------------------------------------------

  predicate IsDigit(c: char) {
    '0' <= c <= '9'
  }

  predicate AllDigits(s: string) {
    forall i :: 0 <= i < |s| ==> IsDigit(s[i])
  }

  function DigitChar(d: nat): (c: char)
    requires d < 10
    ensures IsDigit(c) && c as int - '0' as int == d
  {
    ('0' as int + d) as char
  }

  /** The value of a string of decimal digits, most significant first. */
  function DigitsValue(s: string): nat
    requires AllDigits(s)
    decreases |s|
  {
    if s == [] then 0
    else 10 * DigitsValue(s[..|s| - 1]) + (s[|s| - 1] as int - '0' as int)
  }

  /** Writes an instant as text: a non-empty string of digits. */
  function EncodeTimestamp(n: Timestamp): (s: string)
    ensures s != [] && AllDigits(s)
    decreases n
  {
    if n < 10 then [DigitChar(n)] else EncodeTimestamp(n / 10) + [DigitChar(n % 10)]
  }

  /** Reads an instant back; text that is not a non-empty digit string is
      refused. */
  function DecodeTimestamp(s: string): (r: Option<Timestamp>)
    ensures r.Some? <==> s != [] && AllDigits(s)
  {
    if s != [] && AllDigits(s) then Some(DigitsValue(s)) else None
  }

  lemma {:induction false} DigitsOfEncoding(n: Timestamp)
    ensures DigitsValue(EncodeTimestamp(n)) == n
    decreases n
  {
    if n >= 10 {
      var s := EncodeTimestamp(n);
      assert s[..|s| - 1] == EncodeTimestamp(n / 10);
      DigitsOfEncoding(n / 10);
    }
  }

  /** Reading back a written instant gives the instant. */
  lemma TimestampRoundTrip(n: Timestamp)
    ensures DecodeTimestamp(EncodeTimestamp(n)) == Some(n)
  {
    DigitsOfEncoding(n);
  }

  /** Two instants with the same text are the same instant. */
  lemma EncodeTimestampInjective(m: Timestamp, n: Timestamp)
    requires EncodeTimestamp(m) == EncodeTimestamp(n)
    ensures m == n
  {
    TimestampRoundTrip(m);
    TimestampRoundTrip(n);
  }

  // ---------------------------------------------------------------------
  // JSON records
  // ---------------------------------------------------------------------

  /** `TodoJSON`: a todo as stored in the file, timestamps as text. */
  datatype TodoJson = TodoJson(
    id: string,
    title: string,
    description: string,
    completed: bool,
    createdAt: string,
    updatedAt: string)

  /** `serializeTodo`: four fields copied verbatim, timestamps written as text. */
  function SerializeTodo(t: Todo): (j: TodoJson)
    ensures j.id == t.id && j.title == t.title && j.description == t.description
    ensures j.completed == t.completed
    ensures DecodeTimestamp(j.createdAt) == Some(t.createdAt)
    ensures DecodeTimestamp(j.updatedAt) == Some(t.updatedAt)
  {
    TimestampRoundTrip(t.createdAt);
    TimestampRoundTrip(t.updatedAt);
    TodoJson(t.id, t.title, t.description, t.completed,
             EncodeTimestamp(t.createdAt), EncodeTimestamp(t.updatedAt))
  }

  /** `deserializeTodo`: fails only when a timestamp text does not read back. */
  function DeserializeTodo(j: TodoJson): (r: Option<Todo>)
    ensures r.Some? <==> DecodeTimestamp(j.createdAt).Some? && DecodeTimestamp(j.updatedAt).Some?
    ensures r.Some? ==>
      && r.value.id == j.id && r.value.title == j.title && r.value.description == j.description
      && r.value.completed == j.completed
    ensures r.Some? ==>
      && Some(r.value.createdAt) == DecodeTimestamp(j.createdAt)
      && Some(r.value.updatedAt) == DecodeTimestamp(j.updatedAt)
  {
    match (DecodeTimestamp(j.createdAt), DecodeTimestamp(j.updatedAt))
    case (Some(c), Some(u)) => Some(Todo(j.id, j.title, j.description, j.completed, c, u))
    case _ => None
  }

  /** Every todo survives a write and a read unchanged. */
  lemma SerializeRoundTrip(t: Todo)
    ensures DeserializeTodo(SerializeTodo(t)) == Some(t)
  {
  }

  /** `todos.map(serializeTodo)`. */
  function SerializeAll(todos: seq<Todo>): (js: seq<TodoJson>)
    ensures |js| == |todos|
    ensures forall i :: 0 <= i < |todos| ==> js[i].id == todos[i].id
    ensures forall i :: 0 <= i < |todos| ==> js[i] == SerializeTodo(todos[i])
  {
    Map(todos, SerializeTodo)
  }

  /** `todosJSON.map(deserializeTodo)`, failing if any record fails. */
  function DeserializeAll(js: seq<TodoJson>): (r: Option<seq<Todo>>)
    ensures r.Some? <==> forall i :: 0 <= i < |js| ==> DeserializeTodo(js[i]).Some?
    ensures r.Some? ==> |r.value| == |js|
    ensures r.Some? ==> forall i :: 0 <= i < |js| ==> DeserializeTodo(js[i]) == Some(r.value[i])
    decreases |js|
  {
    if js == [] then Some([])
    else
      match (DeserializeTodo(js[0]), DeserializeAll(js[1..]))
      case (Some(t), Some(rest)) =>
        assert forall i :: 1 <= i < |js| ==> js[i] == js[1..][i - 1];
        Some([t] + rest)
      case (None, _) => None
      case (_, None) =>
        assert forall i :: 0 <= i < |js| - 1 ==> js[1..][i] == js[i + 1];
        None
  }

  /** Reading back a written list gives the same list. */
  lemma SerializeAllRoundTrip(todos: seq<Todo>)
    ensures DeserializeAll(SerializeAll(todos)) == Some(todos)
  {
    var js := SerializeAll(todos);
    forall i | 0 <= i < |js|
      ensures DeserializeTodo(js[i]) == Some(todos[i])
    {
      SerializeRoundTrip(todos[i]);
    }
    var r := DeserializeAll(js);
    assert r.Some?;
    assert r.value == todos;
  }

  // ---------------------------------------------------------------------
  // The file
  // ---------------------------------------------------------------------

  /** The data file: `None` when it is missing or its content does not parse
      as an array of records; otherwise the parsed array. */
  type StoreFile = Option<seq<TodoJson>>

  /** `writeTodos`: the whole list, serialised, replaces the file. */
  function WriteTodos(todos: seq<Todo>): (f: StoreFile)
    ensures f.Some? && |f.value| == |todos|
  {
    Some(SerializeAll(todos))
  }

  /** `getAllTodos`: a best-effort read; a missing or unreadable file, or a
      record that does not read back, yields the empty list. */
  function GetAllTodos(file: StoreFile): (todos: seq<Todo>)
    ensures file.None? ==> todos == []
    ensures todos != [] ==> file.Some? && |todos| == |file.value|
  {
    if file.None? then []
    else
      match DeserializeAll(file.value)
      case Some(todos) => todos
      case None => []
  }

  /** What `writeTodos` wrote, `getAllTodos` reads back. */
  lemma ReadAfterWrite(todos: seq<Todo>)
    ensures GetAllTodos(WriteTodos(todos)) == todos
  {
    SerializeAllRoundTrip(todos);
  }

  // ---------------------------------------------------------------------
  // List operations behind getTodoById, saveTodo and deleteTodo
  // ---------------------------------------------------------------------

  predicate HasId(todos: seq<Todo>, id: string) {
    exists i :: 0 <= i < |todos| && todos[i].id == id
  }

  /** `k` is the first index of `todos` holding `id`. */
  predicate FirstWithId(todos: seq<Todo>, id: string, k: int) {
    && 0 <= k < |todos|
    && todos[k].id == id
    && forall j :: 0 <= j < k ==> todos[j].id != id
  }

  /** No two entries share an id. */
  predicate UniqueIds(todos: seq<Todo>) {
    forall i, j :: 0 <= i < j < |todos| ==> todos[i].id != todos[j].id
  }

  /** `todos.findIndex(t => t.id === id)`: the first matching index, or -1. */
  function IndexOfId(todos: seq<Todo>, id: string): (k: int)
    ensures k == -1 || FirstWithId(todos, id, k)
    ensures k == -1 <==> !HasId(todos, id)
    decreases |todos|
  {
    if todos == [] then -1
    else if todos[0].id == id then 0
    else
      var k := IndexOfId(todos[1..], id);
      assert forall i :: 1 <= i < |todos| ==> todos[i] == todos[1..][i - 1];
      if k == -1 then -1 else k + 1
  }

  /** `todos.find(t => t.id === id) || null`: the first entry with the id. */
  function FindById(todos: seq<Todo>, id: string): (r: Option<Todo>)
    ensures r.None? <==> !HasId(todos, id)
    ensures r.Some? ==> exists k :: FirstWithId(todos, id, k) && todos[k] == r.value
    decreases |todos|
  {
    if todos == [] then None
    else if todos[0].id == id then
      assert FirstWithId(todos, id, 0);
      Some(todos[0])
    else
      var r := FindById(todos[1..], id);
      assert forall i :: 1 <= i < |todos| ==> todos[i] == todos[1..][i - 1];
      if r.Some? then
        var k :| FirstWithId(todos[1..], id, k) && todos[1..][k] == r.value;
        assert FirstWithId(todos, id, k + 1);
        r
      else r
  }

  /** `find` and `findIndex` agree: the found entry sits at the found index. */
  lemma FindAgreesWithIndex(todos: seq<Todo>, id: string)
    ensures FindById(todos, id) == if HasId(todos, id) then Some(todos[IndexOfId(todos, id)]) else None
  {
    var r := FindById(todos, id);
    if HasId(todos, id) {
      assert r.Some?;
      var k :| FirstWithId(todos, id, k) && todos[k] == r.value;
      assert k == IndexOfId(todos, id);
    }
  }

  /** The body of `saveTodo` between its read and its write: replace the
      entry at the first index with the same id, or append. */
  function Upsert(todos: seq<Todo>, todo: Todo): (r: seq<Todo>)
    ensures HasId(todos, todo.id) ==>
      && |r| == |todos|
      && (exists k :: FirstWithId(todos, todo.id, k) && r[k] == todo
            && forall j :: 0 <= j < |r| && j != k ==> r[j] == todos[j])
    ensures !HasId(todos, todo.id) ==> r == todos + [todo]
  {
    var k := IndexOfId(todos, todo.id);
    if k >= 0 then todos[k := todo] else todos + [todo]
  }

  /** The body of `deleteTodo`'s filter: drops every entry with the id. */
  function RemoveId(todos: seq<Todo>, id: string): (r: seq<Todo>)
    ensures IsSubsequence(r, todos)
    ensures forall i :: 0 <= i < |r| ==> r[i].id != id
    ensures forall i :: 0 <= i < |todos| && todos[i].id != id ==> todos[i] in r
    ensures forall i {:trigger multiset(r)[todos[i]]} :: 0 <= i < |todos| && todos[i].id != id ==>
      multiset(r)[todos[i]] == multiset(todos)[todos[i]]
    ensures |r| == |todos| <==> !HasId(todos, id)
  {
    RemoveWhere(todos, (t: Todo) => t.id == id)
  }

  // ---------------------------------------------------------------------
  // The storage operations, file in and file out
  // ---------------------------------------------------------------------

  /** `getTodoById`: the first stored entry with the id, if any. */
  function GetTodoById(file: StoreFile, id: string): (r: Option<Todo>)
    ensures r.None? <==> !HasId(GetAllTodos(file), id)
    ensures r.Some? ==> r.value.id == id && r.value in GetAllTodos(file)
    ensures r.Some? ==> exists k :: FirstWithId(GetAllTodos(file), id, k) && GetAllTodos(file)[k] == r.value
  {
    FindById(GetAllTodos(file), id)
  }

  /** `saveTodo`: read, upsert, write back. */
  function SaveTodo(file: StoreFile, todo: Todo): (f: StoreFile)
    ensures GetAllTodos(f) == Upsert(GetAllTodos(file), todo)
  {
    var todos := Upsert(GetAllTodos(file), todo);
    ReadAfterWrite(todos);
    WriteTodos(todos)
  }

  /** The outcome of `deleteTodo`: the returned flag and the file after it. */
  datatype Deleted = Deleted(removed: bool, file: StoreFile)

  /** `deleteTodo`: `false` and no write when the length did not change,
      otherwise the filtered list is written and `true` returned. */
  function DeleteTodo(file: StoreFile, id: string): (d: Deleted)
    ensures d.removed <==> HasId(GetAllTodos(file), id)
    ensures !d.removed ==> d.file == file
    ensures d.removed ==> GetAllTodos(d.file) == RemoveId(GetAllTodos(file), id)
  {
    var todos := GetAllTodos(file);
    var filtered := RemoveId(todos, id);
    if |filtered| == |todos| then Deleted(false, file)
    else
      ReadAfterWrite(filtered);
      Deleted(true, WriteTodos(filtered))
  }

  // ---------------------------------------------------------------------
  // Properties of the store
  // ---------------------------------------------------------------------

  /** After `saveTodo(t)`, `getTodoById(t.id)` returns `t`. */
  lemma SaveThenGet(file: StoreFile, todo: Todo)
    ensures GetTodoById(SaveTodo(file, todo), todo.id) == Some(todo)
  {
    var before := GetAllTodos(file);
    var after := GetAllTodos(SaveTodo(file, todo));
    if HasId(before, todo.id) {
      var k :| FirstWithId(before, todo.id, k) && after[k] == todo
         && forall j :: 0 <= j < |after| && j != k ==> after[j] == before[j];
      assert FirstWithId(after, todo.id, k);
      FindAgreesWithIndex(after, todo.id);
    } else {
      assert after[|before|] == todo;
      assert FirstWithId(after, todo.id, |before|);
      FindAgreesWithIndex(after, todo.id);
    }
  }

  /** Saving keeps ids unique. */
  lemma SavePreservesUniqueIds(file: StoreFile, todo: Todo)
    requires UniqueIds(GetAllTodos(file))
    ensures UniqueIds(GetAllTodos(SaveTodo(file, todo)))
  {
    var before := GetAllTodos(file);
    var after := GetAllTodos(SaveTodo(file, todo));
    if HasId(before, todo.id) {
      var k :| FirstWithId(before, todo.id, k) && after[k] == todo
         && forall j :: 0 <= j < |after| && j != k ==> after[j] == before[j];
      forall i, j | 0 <= i < j < |after| ensures after[i].id != after[j].id {
        assert after[i].id == before[i].id && after[j].id == before[j].id;
      }
    } else {
      forall i, j | 0 <= i < j < |after| ensures after[i].id != after[j].id {
        if j == |before| {
          assert after[i] == before[i];
        } else {
          assert after[i] == before[i] && after[j] == before[j];
        }
      }
    }
  }

  /** Saving a todo whose id is already stored leaves the count unchanged;
      saving a new one adds exactly one entry, at the end. */
  lemma SaveLength(file: StoreFile, todo: Todo)
    ensures |GetAllTodos(SaveTodo(file, todo))|
      == |GetAllTodos(file)| + (if HasId(GetAllTodos(file), todo.id) then 0 else 1)
  {
  }

  /** Deleting keeps ids unique, and afterwards the id is not found. */
  lemma DeleteThenGet(file: StoreFile, id: string)
    ensures GetTodoById(DeleteTodo(file, id).file, id).None?
    ensures UniqueIds(GetAllTodos(file)) ==> UniqueIds(GetAllTodos(DeleteTodo(file, id).file))
  {
    var before := GetAllTodos(file);
    var d := DeleteTodo(file, id);
    var after := GetAllTodos(d.file);
    if d.removed {
      if UniqueIds(before) {
        SubsequenceKeepsUnique(after, before);
      }
    }
  }

  /** A subsequence of a list with unique ids has unique ids. */
  lemma {:induction false} SubsequenceKeepsUnique(a: seq<Todo>, b: seq<Todo>)
    requires IsSubsequence(a, b) && UniqueIds(b)
    ensures UniqueIds(a)
    decreases |b|
  {
    if a != [] {
      assert b != [];
      assert UniqueIds(b[1..]) by {
        forall i, j | 0 <= i < j < |b[1..]| ensures b[1..][i].id != b[1..][j].id {
          assert b[1..][i] == b[i + 1] && b[1..][j] == b[j + 1];
        }
      }
      if a[0] == b[0] {
        SubsequenceKeepsUnique(a[1..], b[1..]);
        SubsequenceMembers(a[1..], b[1..]);
        forall i, j | 0 <= i < j < |a| ensures a[i].id != a[j].id {
          if i == 0 {
            assert a[j] == a[1..][j - 1];
            var m :| 0 <= m < |b[1..]| && b[1..][m] == a[j];
            assert b[m + 1] == a[j];
          } else {
            assert a[i] == a[1..][i - 1] && a[j] == a[1..][j - 1];
          }
        }
      } else {
        SubsequenceKeepsUnique(a, b[1..]);
      }
    }
  }

  /** Saving over a file that reads as empty leaves exactly the saved todo.
      For a missing or unparsable file this is what the source does too; for
      a record whose timestamp does not read back it is a consequence of this
      model's empty read, where the source would instead fail the write. */
  lemma SaveOverUnreadableFile(file: StoreFile, todo: Todo)
    requires GetAllTodos(file) == []
    ensures GetAllTodos(SaveTodo(file, todo)) == [todo]
  {
  }
}

=== FILE: sync.dfy ===
/** The client and the server together: the browser's list is meant to stay
    the JSON image of the stored list, with each handler applying the API's
    answer locally instead of reloading. These lemmas show that each client
    action, fed the reply the server's handler actually produces, keeps the
    two in step. The `fetch` wrappers of `frontend/src/api/todos.ts` become
    the conversions from a reply to an `ApiResult`. */
module Sync {
  import opened Common
  import opened TodoModel
  import opened Storage
  import Api
  import ClientApp

  /** `response.ok`: a 2xx status. */
  predicate IsOk(status: int) {
    200 <= status < 300
  }

  /** A fetch wrapper resolving to one todo: the JSON of the reply's todo on
      a 2xx status, otherwise a thrown error. */
  function TodoResult(reply: Api.Reply): ClientApp.ApiResult<TodoJson> {
    if IsOk(reply.status) && reply.payload.One? then ClientApp.Success(SerializeTodo(reply.payload.todo))
    else ClientApp.Failure
  }

  /** `fetchTodos`: the JSON of the whole list on a 2xx status. */
  function ListResult(reply: Api.Reply): ClientApp.ApiResult<seq<TodoJson>> {
    if IsOk(reply.status) && reply.payload.All? then ClientApp.Success(SerializeAll(reply.payload.todos))
    else ClientApp.Failure
  }

  /** `deleteTodo`: resolves with nothing on a 2xx status. */
  function DoneResult(reply: Api.Reply): ClientApp.ApiResult<()> {
    if IsOk(reply.status) then ClientApp.Success(()) else ClientApp.Failure
  }

  /** The JSON bodies the client sends: it always sends both fields. */
  function CreateBody(dto: ClientApp.CreateDto): Api.Body {
    Api.Body(Some(dto.title), Some(dto.description))
  }

  function UpdateBody(dto: ClientApp.UpdateDto): Api.Body {
    Api.Body(Some(dto.title), Some(dto.description))
  }

  /** The client's list is the JSON image of the stored list. */
  predicate Mirrors(s: ClientApp.State, file: StoreFile) {
    s.todos == SerializeAll(GetAllTodos(file))
  }

  /** After `loadTodos` the client mirrors the store. */
  lemma LoadSyncs(s: ClientApp.State, file: StoreFile)
    ensures Mirrors(ClientApp.LoadTodos(s, ListResult(Api.HandleList(file))), file)
  {
  }

  /** An add the client lets through is never refused by the server (both
      test the title the same way), and with a fresh id the appended reply
      keeps the client in step. A blank title sends nothing. */
  lemma AddSyncs(s: ClientApp.State, file: StoreFile, now: Timestamp, freshId: string)
    requires Mirrors(s, file) && !HasId(GetAllTodos(file), freshId)
    ensures ClientApp.AddRequest(s).None? ==> forall r :: ClientApp.HandleAddTodo(s, r) == s
    ensures ClientApp.AddRequest(s).Some? ==>
      var reply := Api.HandlePost(file, CreateBody(ClientApp.AddRequest(s).value), now, freshId);
      && reply.status == 201
      && Mirrors(ClientApp.HandleAddTodo(s, TodoResult(reply)), reply.file)
  {
    if ClientApp.AddRequest(s).Some? {
      var body := CreateBody(ClientApp.AddRequest(s).value);
      assert !Api.MissingOrBlank(body.title);
      var reply := Api.HandlePost(file, body, now, freshId);
      assert reply.status == 201;
      var before := GetAllTodos(file);
      assert GetAllTodos(reply.file) == before + [reply.payload.todo];
      assert SerializeAll(before + [reply.payload.todo]) == SerializeAll(before) + [SerializeTodo(reply.payload.todo)];
    }
  }

  /** Replacing the one entry with an id, then serialising, is serialising,
      then replacing every entry with that id. */
  lemma ReplaceCommutesWithSerialize(todos: seq<Todo>, k: int, t: Todo)
    requires UniqueIds(todos) && 0 <= k < |todos| && t.id == todos[k].id
    ensures SerializeAll(todos[k := t]) == ClientApp.ReplaceById(SerializeAll(todos), t.id, SerializeTodo(t))
  {
    var left := SerializeAll(todos[k := t]);
    var right := ClientApp.ReplaceById(SerializeAll(todos), t.id, SerializeTodo(t));
    forall i | 0 <= i < |todos| ensures left[i] == right[i] {
      if i != k {
        assert SerializeAll(todos)[i].id == todos[i].id != t.id;
      }
    }
  }

  /** Replacing the first stored entry with an id (the server) and replacing
      every listed entry with that id (the client) keep the client's list the
      JSON image of the store. */
  lemma ReplacementSyncs(s: ClientApp.State, file: StoreFile, after: StoreFile, k: int, t: Todo)
    requires Mirrors(s, file) && UniqueIds(GetAllTodos(file))
    requires FirstWithId(GetAllTodos(file), t.id, k)
    requires GetAllTodos(after) == GetAllTodos(file)[k := t]
    ensures ClientApp.ReplaceById(s.todos, t.id, SerializeTodo(t)) == SerializeAll(GetAllTodos(after))
  {
    ReplaceCommutesWithSerialize(GetAllTodos(file), k, t);
  }

  /** A toggle keeps the client in step when ids are unique; a 404 changes
      neither side. */
  lemma ToggleSyncs(s: ClientApp.State, file: StoreFile, id: string, now: Timestamp)
    requires Mirrors(s, file) && UniqueIds(GetAllTodos(file))
    ensures
      var reply := Api.HandleToggle(file, id, now);
      Mirrors(ClientApp.HandleToggleTodo(s, id, TodoResult(reply)), reply.file)
  {
    var todos := GetAllTodos(file);
    var k := IndexOfId(todos, id);
    if k >= 0 {
      Api.ToggleAt(file, id, k, now);
      var reply := Api.HandleToggle(file, id, now);
      ReplacementSyncs(s, file, reply.file, k, reply.payload.todo);
    }
  }

  /** A saved edit keeps the client in step when ids are unique; a 404 or a
      400 (blank draft title) changes neither side and keeps the drafts. */
  lemma SaveEditSyncs(s: ClientApp.State, file: StoreFile, id: string, now: Timestamp)
    requires Mirrors(s, file) && UniqueIds(GetAllTodos(file))
    ensures
      var reply := Api.HandlePut(file, id, UpdateBody(ClientApp.SaveRequest(s)), now);
      && Mirrors(ClientApp.HandleSaveEdit(s, id, TodoResult(reply)), reply.file)
      && (reply.status != 200 ==> ClientApp.HandleSaveEdit(s, id, TodoResult(reply)) == s)
  {
    var body := UpdateBody(ClientApp.SaveRequest(s));
    var reply := Api.HandlePut(file, id, body, now);
    var todos := GetAllTodos(file);
    var k := IndexOfId(todos, id);
    if k >= 0 && !Api.ProvidedBlank(body.title) {
      Api.PutAt(file, id, k, body, now);
      ReplacementSyncs(s, file, reply.file, k, reply.payload.todo);
    } else {
      assert reply.status in {400, 404};
      assert TodoResult(reply) == ClientApp.Failure;
    }
  }

  /** A delete keeps the client in step; a 404 changes neither side. */
  lemma DeleteSyncs(s: ClientApp.State, file: StoreFile, id: string)
    requires Mirrors(s, file)
    ensures
      var reply := Api.HandleDelete(file, id);
      Mirrors(ClientApp.HandleDeleteTodo(s, id, DoneResult(reply)), reply.file)
  {
    var reply := Api.HandleDelete(file, id);
    if reply.status != 404 {
      var todos := GetAllTodos(file);
      RemoveWhereMap(todos, SerializeTodo, (t: Todo) => t.id == id, (j: TodoJson) => j.id == id);
      assert RemoveId(todos, id) == RemoveWhere(todos, (t: Todo) => t.id == id);
      assert ClientApp.RemoveById(SerializeAll(todos), id) == RemoveWhere(SerializeAll(todos), (j: TodoJson) => j.id == id);
    }
  }
}

=== FILE: text.dfy ===
/** The string predicates the todo code relies on: `String.prototype.trim`
    and the "blank title" test `!s || s.trim() === ''`. */
module Text {

  /** The characters `trim` removes: ECMAScript WhiteSpace and LineTerminator
      code points (section 12.2 and 12.3 of ECMA-262). */
  predicate IsWhitespace(c: char) {
    || c == '\t' || c == '\n' || c == '\U{000B}' || c == '\U{000C}' || c == '\r'
    || c == ' ' || c == '\U{00A0}' || c == '\U{1680}'
    || ('\U{2000}' <= c <= '\U{200A}')
    || c == '\U{2028}' || c == '\U{2029}' || c == '\U{202F}' || c == '\U{205F}'
    || c == '\U{3000}' || c == '\U{FEFF}'
  }

  /** Leading whitespace removed: the result is a suffix of `s` that starts
      with a non-whitespace character, and everything cut off is whitespace. */
  function TrimStart(s: string): (r: string)
    ensures |r| <= |s| && r == s[|s| - |r|..]
    ensures r != [] ==> !IsWhitespace(r[0])
    ensures forall i :: 0 <= i < |s| - |r| ==> IsWhitespace(s[i])
  {
    if s != [] && IsWhitespace(s[0]) then TrimStart(s[1..]) else s
  }

  /** Trailing whitespace removed: the result is a prefix of `s` that ends
      with a non-whitespace character, and everything cut off is whitespace. */
  function TrimEnd(s: string): (r: string)
    ensures |r| <= |s| && r == s[..|r|]
    ensures r != [] ==> !IsWhitespace(r[|r| - 1])
    ensures forall i :: |r| <= i < |s| ==> IsWhitespace(s[i])
  {
    if s != [] && IsWhitespace(s[|s| - 1]) then TrimEnd(s[..|s| - 1]) else s
  }

  /** `r` occurs in `s` starting at index `k`. */
  predicate SliceAt(r: string, s: string, k: int) {
    0 <= k <= |s| - |r| && r == s[k..k + |r|]
  }

  /** `s` is `r` at index `k` with only whitespace before and after it. */
  predicate PaddedAt(r: string, s: string, k: int) {
    && SliceAt(r, s, k)
    && (forall i :: 0 <= i < k ==> IsWhitespace(s[i]))
    && (forall i :: k + |r| <= i < |s| ==> IsWhitespace(s[i]))
  }

  /** `s.trim()`: `s` with the whitespace at both ends cut off and nothing
      else; the result neither starts nor ends with whitespace. */
  function Trim(s: string): (r: string)
    ensures exists k :: PaddedAt(r, s, k)
    ensures r != [] ==> !IsWhitespace(r[0]) && !IsWhitespace(r[|r| - 1])
  {
    var front := TrimStart(s);
    var r := TrimEnd(front);
    var k := |s| - |front|;
    assert forall i :: k + |r| <= i < |s| ==> s[i] == front[i - k];
    assert PaddedAt(r, s, k);
    r
  }

  /** The guard `!s || s.trim() === ''` (an empty string is falsy). */
  predicate IsBlank(s: string) {
    s == "" || Trim(s) == ""
  }

  /** A string is blank exactly when every character in it is whitespace. */
  lemma BlankIffAllWhitespace(s: string)
    ensures IsBlank(s) <==> forall i :: 0 <= i < |s| ==> IsWhitespace(s[i])
  {
  }
}

=== FILE: todo.dfy ===
/** The todo entity (`models/Todo.ts`): the six-field record and its three
    pure operations. The clock reading and the fresh identifier that the
    source takes from `new Date()` and `randomUUID()` are parameters here. */
module TodoModel {
  import opened Common
  import Text

  /** An instant, in milliseconds since the epoch. */
  type Timestamp = nat

  datatype Todo = Todo(
    id: string,
    title: string,
    description: string,
    completed: bool,
    createdAt: Timestamp,
    updatedAt: Timestamp)

  /** The one error the entity raises, thrown as 'Title cannot be empty'. */
  datatype ValidationError = TitleCannotBeEmpty

  datatype Result<+T> = Ok(value: T) | Err(error: ValidationError)

  /** `TodoUpdate`: each field is either absent (`None`) or provided. */
  datatype TodoUpdate = TodoUpdate(title: Option<string>, description: Option<string>)

  /** The entity invariant: a non-blank title and `createdAt <= updatedAt`. */
  predicate Valid(t: Todo) {
    !Text.IsBlank(t.title) && t.createdAt <= t.updatedAt
  }

  /** `createTodo`: rejects a blank title whatever the description; otherwise
      an uncompleted todo with the given texts, stamped twice with `now`. */
  function CreateTodo(title: string, description: string, now: Timestamp, freshId: string): (r: Result<Todo>)
    ensures r.Err? <==> Text.IsBlank(title)
    ensures r.Ok? ==>
      && r.value.id == freshId
      && r.value.title == title
      && r.value.description == description
      && !r.value.completed
      && r.value.createdAt == now == r.value.updatedAt
    ensures r.Ok? ==> Valid(r.value)
  {
    if Text.IsBlank(title) then Err(TitleCannotBeEmpty)
    else Ok(Todo(freshId, title, description, false, now, now))
  }

  /** The update's title is present and blank: the only rejected update. */
  predicate RejectsTitle(u: TodoUpdate) {
    u.title.Some? && Text.IsBlank(u.title.value)
  }

  /** `updateTodo`: fails exactly when a title is provided and blank; otherwise
      overwrites the provided fields (an empty description included), keeps
      the absent ones, and touches nothing but `updatedAt` besides. */
  function UpdateTodo(todo: Todo, updates: TodoUpdate, now: Timestamp): (r: Result<Todo>)
    ensures r.Err? <==> RejectsTitle(updates)
    ensures r.Ok? ==>
      && r.value.id == todo.id
      && r.value.createdAt == todo.createdAt
      && r.value.completed == todo.completed
      && r.value.updatedAt == now
    ensures r.Ok? ==> r.value.title == (if updates.title.Some? then updates.title.value else todo.title)
    ensures r.Ok? ==> r.value.description == (if updates.description.Some? then updates.description.value else todo.description)
  {
    if RejectsTitle(updates) then Err(TitleCannotBeEmpty)
    else Ok(todo.(
      title := updates.title.GetOr(todo.title),
      description := updates.description.GetOr(todo.description),
      updatedAt := now))
  }

  /** `toggleTodoCompletion`: flips `completed`, restamps `updatedAt`, and
      leaves id, title, description and `createdAt` alone. */
  function ToggleTodoCompletion(todo: Todo, now: Timestamp): (r: Todo)
    ensures r.completed != todo.completed
    ensures r.id == todo.id && r.title == todo.title && r.description == todo.description
    ensures r.createdAt == todo.createdAt && r.updatedAt == now
  {
    todo.(completed := !todo.completed, updatedAt := now)
  }

  /** An absent title never makes an update fail. */
  lemma AbsentTitleNeverFails(todo: Todo, description: Option<string>, now: Timestamp)
    ensures UpdateTodo(todo, TodoUpdate(None, description), now).Ok?
  {
  }

  /** Toggling twice restores `completed` and every other field except
      `updatedAt`, which ends at the second clock reading. */
  lemma ToggleTwiceRestores(todo: Todo, now1: Timestamp, now2: Timestamp)
    ensures ToggleTodoCompletion(ToggleTodoCompletion(todo, now1), now2) == todo.(updatedAt := now2)
  {
  }

  /** With a clock that does not run backwards, `updatedAt` never decreases
      across toggles. */
  lemma ToggleUpdatedAtMonotone(todo: Todo, now1: Timestamp, now2: Timestamp)
    requires todo.updatedAt <= now1 <= now2
    ensures todo.updatedAt <= ToggleTodoCompletion(todo, now1).updatedAt
      <= ToggleTodoCompletion(ToggleTodoCompletion(todo, now1), now2).updatedAt
  {
  }

  /** The entity invariant survives update and toggle when the clock reading
      is not earlier than the todo's last stamp. */
  lemma OperationsPreserveValid(todo: Todo, u: TodoUpdate, now: Timestamp)
    requires Valid(todo) && todo.updatedAt <= now
    ensures UpdateTodo(todo, u, now).Ok? ==> Valid(UpdateTodo(todo, u, now).value)
    ensures Valid(ToggleTodoCompletion(todo, now))
  {
  }

  /** One mutation a stored todo can undergo after `createTodo`. */
  datatype Op = Update(u: TodoUpdate) | Toggle

  /** Applies one mutation with clock reading `now`. */
  function Step(todo: Todo, op: Op, now: Timestamp): (r: Result<Todo>)
    ensures r.Ok? ==> r.value.id == todo.id && r.value.createdAt == todo.createdAt && r.value.updatedAt == now
    ensures Valid(todo) && todo.updatedAt <= now && r.Ok? ==> Valid(r.value)
  {
    match op
    case Update(u) => UpdateTodo(todo, u, now)
    case Toggle => Ok(ToggleTodoCompletion(todo, now))
  }

  /** Applies `ops` in order with clock readings `clock`, stopping at the
      first failed update. */
  function ApplyAll(todo: Todo, ops: seq<Op>, clock: seq<Timestamp>): (r: Result<Todo>)
    requires |ops| == |clock|
    decreases |ops|
  {
    if ops == [] then Ok(todo)
    else
      var next := Step(todo, ops[0], clock[0]);
      if next.Err? then next else ApplyAll(next.value, ops[1..], clock[1..])
  }

  /** The clock readings never go back and start no earlier than `start`. */
  predicate MonotoneFrom(start: Timestamp, clock: seq<Timestamp>) {
    forall i :: 0 <= i < |clock| ==> start <= clock[i] && (i > 0 ==> clock[i - 1] <= clock[i])
  }

  /** Any history of updates and toggles under a non-decreasing clock keeps
      a valid todo valid (so its title stays non-blank), keeps its id and
      `createdAt`, and never moves `updatedAt` backwards. */
  lemma {:induction false} HistoryKeepsInvariant(todo: Todo, ops: seq<Op>, clock: seq<Timestamp>)
    requires Valid(todo)
    requires |ops| == |clock| && MonotoneFrom(todo.updatedAt, clock)
    ensures ApplyAll(todo, ops, clock).Ok? ==>
      && Valid(ApplyAll(todo, ops, clock).value)
      && ApplyAll(todo, ops, clock).value.id == todo.id
      && ApplyAll(todo, ops, clock).value.createdAt == todo.createdAt
      && todo.updatedAt <= ApplyAll(todo, ops, clock).value.updatedAt
    decreases |ops|
  {
    if ops != [] {
      var next := Step(todo, ops[0], clock[0]);
      if next.Ok? {
        var rest := clock[1..];
        assert MonotoneFrom(next.value.updatedAt, rest) by {
          forall i | 0 <= i < |rest|
            ensures next.value.updatedAt <= rest[i] && (i > 0 ==> rest[i - 1] <= rest[i])
          {
            assert rest[i] == clock[i + 1];
            if i == 0 {
            } else {
              assert rest[i - 1] == clock[i];
            }
            assert forall j :: 0 < j <= i + 1 ==> clock[0] <= clock[j] by {
              forall j | 0 < j <= i + 1 ensures clock[0] <= clock[j] {
                ClockMonotone(todo.updatedAt, clock, 0, j);
              }
            }
          }
        }
        HistoryKeepsInvariant(next.value, ops[1..], rest);
      }
    }
  }

  /** A non-decreasing clock: an earlier reading is never later. */
  lemma {:induction false} ClockMonotone(start: Timestamp, clock: seq<Timestamp>, i: nat, j: nat)
    requires MonotoneFrom(start, clock)
    requires i <= j < |clock|
    ensures clock[i] <= clock[j]
    decreases j - i
  {
    if i < j {
      ClockMonotone(start, clock, i, j - 1);
    }
  }
}
